=== FILE: README.md ===
# Asteroids game logic in Dafny

A model of the game-state logic of `asteroids.js`, a browser Asteroids game,
with proofs about it. The model covers:

- the toroidal `wrap` of a coordinate;
- the ship: creation, the per-frame `update` (thrust, damping, wrap, bullet
  ageing and pruning, the invulnerability countdown), `shoot` with its cap,
  `hyperspace` and `reset`;
- bullets and asteroids: creation and motion, `spawnAsteroids`, and the
  fragmentation of a destroyed asteroid;
- one pass of `gameLoop` in play: the ship-asteroid collision pass, the
  bullet-asteroid pass with scoring and fragmentation, the extra-life check
  and the level-clear check;
- the `game` object's transitions `start`, `nextLevel` and `loseLife`, with
  the states `start`, `playing` and `gameover`;
- the keydown and keyup handlers.

Modules, one per file:

| module | file | what it holds |
|---|---|---|
| `Geometry` | `geometry.dfy` | vectors, `wrap`, `randBetween`, the strict circle-overlap test |
| `Ships` | `ships.dfy` | `Ship`, `Bullet`, and their operations |
| `Asteroids` | `asteroids.dfy` | `Asteroid`, spawning, fragmentation, size classes |
| `Collisions` | `collisions.dfy` | the two collision passes and an independent description of their outcome |
| `Arcade` | `arcade.dfy` | the game state machine, one frame, the key handlers, the game invariant |

How the outside world appears in the model:

- Positions, velocities, radii and distances are exact `real`s. The
  remainder `%` of `wrap` is written out with truncation toward zero, as the
  runtime computes it, so a negative dividend gives a non-positive result.
- `Math.hypot(p - q) < reach` is `Overlaps(p, q, reach)`: `reach > 0` and the
  squared distance is below `reach * reach`. Over the reals the two are equal.
- Every `Math.random()` draw is a parameter of type `Unit`, a real in
  `[0, 1)`. `randBetween(a, b)` is `a + u * (b - a)` for such a draw.
- The cosine and sine of an angle are supplied as a direction vector `dir`.
  The ship's `angle` is kept as `turn`, the offset from the initial heading
  `-PI / 2`. A key press changes `turn` by exactly as much as the source
  changes `angle`.
- The two timers become requests. A frame or a key press returns
  `Requests(loseLife, nextLevel)`, and the caller applies `LoseLife` or
  `NextLevel` when the delay is over.

Three behaviours of the code that are easy to misread:

- A hit sets the asteroid's radius to 0. A distance is never below 0, so no
  later bullet matches it in the same pass. An asteroid hit by two bullets
  in one pass is scored and fragmented once, and only the first bullet
  inside it is spent; the second keeps its life
  (`Collisions.DoubleHitScoresOnce`).
- The inner loop does not skip a bullet whose life is already 0. So one
  bullet destroys every asteroid it lies in (`Collisions.OneBulletTwoHits`).
- `new Ship()` sets `invulnerable` to 0. A new game gives no spawn shield.

## Model

| member | source | states |
|---|---|---|
| Geometry.Rem | asteroids.js:10 | the remainder of `%` has the sign of the dividend and a magnitude below the divisor: in [0, m) for a non-negative dividend, in (-m, 0] for a negative one |
| Geometry.RemExact | asteroids.js:10 | a dividend in [k*m, (k+1)*m) for a whole k >= 0 leaves the remainder a - k*m |
| Geometry.Wrap | asteroids.js:10 | for any coordinate at least -max the wrapped value lies in [0, max); it is the identity on the field, shifts by max one field-length either side, and further below -max stays in (-max, 0] |
| Geometry.Move | asteroids.js:33-34 | a move whose sum p + v is at least minus the canvas size in each coordinate lands inside the half-open field, so in particular does a point on the canvas moved by a velocity no more negative than minus the canvas size; zero velocity leaves a point on the field where it is |
| Geometry.RandBetween | asteroids.js:8 | a draw from [0, 1) gives a value in [a, b) when a < b, and exactly a when a = b |
| Geometry.Overlaps | asteroids.js:9 | the collision test never holds for a reach of 0 or less, and it is symmetric in its two points |
| Geometry.OverlapsIffCloser | asteroids.js:9 | for the non-negative distance d between the points (d squared equals the squared distance), the test holds exactly when d < reach, which is `dist(p, q) < reach` |
| Geometry.TouchingDoesNotOverlap | asteroids.js:222 | two circles at distance exactly equal to the reach do not collide: the comparison is strict |
| Geometry.NothingWithinZero | asteroids.js:242 | nothing lies within a reach of 0 or less, so the radius 0 left by a hit matches no bullet |
| Ships.NewBullet | asteroids.js:81-88 | a new bullet starts at the ship's position with 60 frames to live and speed 6 along the heading |
| Ships.BulletUpdate | asteroids.js:89-93 | one frame takes exactly one frame of life, keeps the velocity, and brings the bullet onto the field |
| Ships.AgeAll | asteroids.js:35 | every bullet is updated once, in place, and none is added or dropped |
| Ships.KeepLive | asteroids.js:36 | the filter keeps exactly the bullets with life above 0 and no others |
| Ships.KeepLiveConcat | asteroids.js:36 | the filter distributes over concatenation, so survivors keep their relative order |
| Ships.KeepLiveAllAlive | asteroids.js:36 | a list of live bullets passes the filter unchanged |
| Ships.NewShip | asteroids.js:13-25 | a new ship is centred, at rest, pointing up, alive, unshielded, with no bullets, three lives and no score |
| Ships.ShipUpdate | asteroids.js:26-38 | velocity is damped by 0.99 after an optional 0.12 push along the heading; the ship lands on the field; the bullets are the filter of the aged bullets, so (with `KeepLive` and `KeepLiveConcat`) the survivors are exactly the aged bullets with life left, each alive, from one the ship held, in firing order; the shield counts down by one while positive and is otherwise unchanged, so it stops at 0; nothing else changes |
| Ships.ShipUpdateKeepsYoungBullets | asteroids.js:35-36 | bullets with more than one frame left all survive an update, each aged by one frame, in firing order |
| Ships.Shoot | asteroids.js:61-64 | with more than five bullets nothing changes; otherwise exactly one bullet with full life is appended at the ship and the others are kept in order |
| Ships.ShootingRespectsCap | asteroids.js:61-64 | from at most six bullets, no sequence of shots ever holds more than six |
| Ships.ShootingFullIsNoOp | asteroids.js:62 | any number of shots into a full magazine leaves the ship unchanged |
| Ships.HyperspaceAsWritten | asteroids.js:65-69 | the jump puts the ship on the field and marks it dead exactly when it already was or the draw is below 1/6; no other field changes, so no life is taken |
| Ships.Hyperspace | asteroids.js:65-69 | the jump as written, plus a life-loss request exactly when the ship was alive and the mishap draw is below 1/6 |
| Ships.ShipReset | asteroids.js:70-77 | the ship is centred, at rest, pointing up, alive and shielded for 120 frames; lives, score, thrust and bullets are kept |
| Asteroids.AsteroidUpdate | asteroids.js:120-123 | only the position changes; it lands on the field, and an asteroid at rest on the field stays put |
| Asteroids.SpawnOne | asteroids.js:140-146 | a spawned asteroid is of generation 1, radius in [32, 50), each velocity component in [-2, 2), on the canvas and on one of its four edges |
| Asteroids.Spawn | asteroids.js:137-149 | exactly n asteroids, the i-th from the i-th draws, all of generation 1 with radius in [32, 50) and within the size classes |
| Asteroids.Fragments | asteroids.js:235-241 | a split yields exactly two children at the parent's position, each with radius times 1.7 equal to the parent's and one generation deeper, so strictly smaller |
| Asteroids.FragmentsInSizeClass | asteroids.js:235-239 | an asteroid that can split is of generation 1 or 2 and its children are again in a size class, so no asteroid goes past generation 3 |
| Collisions.ShipSweep | asteroids.js:221-226 | the loop from index i adds one life loss exactly when the ship is vulnerable and some later asteroid overlaps it, and marks the ship dead accordingly |
| Collisions.ShipPass | asteroids.js:221-226 | the ship dies, with at most one life loss scheduled, exactly when it was alive and unshielded and some asteroid lies strictly closer than the sum of the radii |
| Collisions.Points | asteroids.js:234 | a hit scores 20 for generation 1, 50 for generation 2, and 100 for any other generation |
| Collisions.FirstWithin | asteroids.js:231-232 | the search returns the first bullet position inside the reach, or none when no bullet from index j on is inside |
| Collisions.Spend | asteroids.js:233 | bullet j gets life 0; every other bullet, and every position, is unchanged |
| Collisions.ScanBullets | asteroids.js:231-244 | the inner loop moves no bullet; it either changes nothing or leaves the radius 0; it adds the asteroid's table value at most once; it appends at most two asteroids and keeps the list built so far |
| Collisions.ScanOutcome | asteroids.js:231-244 | the inner loop over the bullets changes nothing when no bullet is inside the asteroid; otherwise it spends only the first bullet inside, scores once, fragments once when the radius exceeds 22, and leaves the radius 0 |
| Collisions.FirstWithinMeansFirstInside | asteroids.js:231-232 | the search result agrees, in both directions, with the reference description of a struck asteroid and of its first bullet |
| Collisions.Visit | asteroids.js:230-245 | one asteroid's turn moves no bullet, adds its table value at most once, and appends at most two asteroids to the list built so far |
| Collisions.VisitGain | asteroids.js:230-244 | one asteroid's turn adds its table value exactly when some bullet is strictly inside it |
| Collisions.VisitFate | asteroids.js:230-245 | one asteroid's turn appends its fate: itself unchanged when unstruck with positive radius, two fragments when struck above radius 22, nothing otherwise |
| Collisions.VisitSpends | asteroids.js:231-243 | one asteroid's turn spends exactly the first bullet inside it and leaves every other bullet as it was |
| Collisions.Sweep | asteroids.js:229-247 | the outer loop moves no bullet, never lowers the score, keeps the list built so far and adds at most two asteroids per asteroid visited |
| Collisions.SweepGain | asteroids.js:229-247 | the outer loop from index i adds the sum of the table values of the struck asteroids, each once |
| Collisions.SweepFates | asteroids.js:229-247 | the outer loop from index i appends the asteroids' fates in order |
| Collisions.SweepSpends | asteroids.js:229-247 | the outer loop from index i spends exactly the bullets that are the first inside some asteroid and leaves the others as they were |
| Collisions.BulletPass | asteroids.js:229-247 | the whole bullet-asteroid pass: no bullet moves; the score grows by each struck asteroid's table value once; unstruck asteroids are kept unchanged and in order, struck ones replaced by their fragments or removed; exactly the first bullet inside each struck asteroid is spent |
| Collisions.GainBounds | asteroids.js:234 | the score gain of a pass is never negative and at most 100 per asteroid |
| Collisions.FatesInSizeClass | asteroids.js:235-245 | the rebuilt list stays within the size classes when the field was |
| Collisions.DoubleHitScoresOnce | asteroids.js:231-243 | two bullets inside one asteroid: it scores once, fragments once, and only the first bullet is spent |
| Collisions.OneBulletTwoHits | asteroids.js:230-233 | one bullet inside two asteroids destroys and scores both in the same pass |
| Arcade.Boot | asteroids.js:151-155 | the page starts in the start state at level 1 with an empty field and a new ship |
| Arcade.StartGame | asteroids.js:156-162 | a new game is playing at level 1 with a fresh ship of three lives and no score, and exactly four generation-1 asteroids of radius in [32, 50) |
| Arcade.NextLevel | asteroids.js:163-166 | the level goes up by one and the field is replaced by exactly 3 + (new level) generation-1 asteroids; ship and state are untouched |
| Arcade.LoseLife | asteroids.js:167-177 | one life fewer; with lives left the ship is reset and the state kept; at zero lives the state is gameover and the ship is otherwise untouched; field and level are kept |
| Arcade.LoseLifeCases | asteroids.js:167-176 | in play, a loss from two lives leaves a live, shielded ship with one life; a loss from one life ends the game |
| Arcade.ExtraLifeAsWritten | asteroids.js:250-252 | as written: at most one life per frame, granted exactly when score >= (lives - 2) * 10000, so always when lives <= 2 and the score is not negative |
| Arcade.ExtraLife | asteroids.js:249-252 | corrected rule: at most one life per frame, granted exactly when the score reaches 10000 times one more than the lives granted so far, and counted as granted |
| Arcade.ExtraLifeAgreesWithoutLosses | asteroids.js:250-252 | while no life has been lost, the corrected rule grants the same lives as the rule as written |
| Arcade.AsWrittenLossIsRefunded | asteroids.js:250-252 | under the rule as written, a loss from three or more lives keeps the game going and the next frame's check brings the lives back to at least three |
| Arcade.ThreeLossesFromAFreshGame | asteroids.js:167-177 | three losses of a fresh ship with no points, each followed by a frame's check: the game is still playing with three lives under the rule as written, and over under the corrected rule |
| Arcade.MoveAll | asteroids.js:215-218 | every asteroid is moved once, in place, and none is added or dropped |
| Arcade.Collide | asteroids.js:211-247 | the collision passes of a frame: the life-loss count is the ship pass's; the score grows by the table value of each struck asteroid once; the field becomes the moved asteroids' fates in order; exactly the first bullet inside each struck asteroid is spent and nothing else on the ship changes |
| Arcade.FrameAsWritten | asteroids.js:195-257 | a frame as written: outside play nothing changes; in play the collision passes run, one life is added exactly when the new score reaches (lives - 2) * 10000 (so always with two lives or fewer), the next level is requested exactly when the field is empty, and a life loss exactly when the ship pass scheduled one, and never for a ship already dead |
| Arcade.Frame | asteroids.js:195-257 | the corrected frame: outside play nothing changes; in play the collision passes run, one life is added and counted exactly when the new score reaches 10000 times one more than the lives granted so far, the next level is requested exactly when the field is empty and no advance is pending, a dead ship stays dead and asks nothing, the score never drops and the bullets never grow |
| Arcade.FramesShareCollisions | asteroids.js:211-257 | the two frames agree on the field, the state, the level, the score, the bullets and the rest of the ship, and the life-loss request; they differ only in lives, the count of lives granted (`bonusLives`), the pending-advance flag (which the frame as written never sets) and the level-clear request |
| Arcade.FrameShipCollision | asteroids.js:221-226 | a frame requests a life loss exactly when the moved ship is vulnerable and overlaps a moved asteroid |
| Arcade.PendingAdvanceStaysSilent | asteroids.js:254-257 | while an advance is pending, any number of corrected frames keep it pending and the frame after them does not ask for another |
| Arcade.LevelAdvanceRequestedOnce | asteroids.js:254-257 | with the pending flag, after a frame that requests the next level no later frame requests it again, however many frames pass before the advance |
| Arcade.AsWrittenLevelClearRepeats | asteroids.js:254-257 | with frames as written, an empty field stays empty, two consecutive frames both ask for an advance, and carrying both out skips a level |
| Arcade.DeadShipStaysDead | asteroids.js:222 | a dead ship stays dead through any number of corrected frames |
| Arcade.DeadShipAsksNothing | asteroids.js:221-226 | no corrected frame requests a dead ship's life loss, so only a request made when it died can revive it |
| Arcade.AsWrittenDeadShipStaysDead | asteroids.js:222 | a dead ship stays dead through any number of frames as written |
| Arcade.MishapStrandsShip | asteroids.js:65-69 | as written, H pressed in play with a draw below 1/6 leaves the ship dead; no later frame as written asks for its life loss, and it stays dead through any number of them |
| Arcade.KeyDownAsWritten | asteroids.js:264-272 | the handler as written: outside play every key is ignored; in play only the ship changes: the arrows turn it by 0.13 or switch thrust on, space shoots, H jumps; other keys change nothing |
| Arcade.KeyDown | asteroids.js:264-272 | the corrected handler: the game changes exactly as under the handler as written; a life loss is requested exactly when H destroys a live ship, and nothing else is requested |
| Arcade.KeyUp | asteroids.js:273-276 | releasing the up arrow switches thrust off, in every state; any other key changes nothing |
| Arcade.BootAndStartAreValid | asteroids.js:151-162 | the initial game and every new game satisfy the game invariant |
| Arcade.NextLevelKeepsValid | asteroids.js:163-166 | advancing the level keeps the invariant |
| Arcade.LoseLifeKeepsValid | asteroids.js:167-177 | losing a life keeps the invariant |
| Arcade.KeysKeepValid | asteroids.js:264-276 | every key press, under either handler, and every release keeps the invariant, in particular the cap of six bullets |
| Arcade.MoveAllKeepsSizeClass | asteroids.js:215-218 | moving the asteroids keeps every one in its size class |
| Arcade.FrameAsWrittenKeepsValid | asteroids.js:211-257 | a frame as written keeps the same invariant |
| Arcade.FrameKeepsValid | asteroids.js:211-257 | a corrected frame keeps the invariant: at most six bullets, a shield never negative, asteroids of generation 1 to 3 within their size classes, a non-negative score that covers every extra life granted, level at least 1 |

## Left out

- Drawing: the `draw` methods, `drawUI` and the title screen of `gameLoop`. They only render.
- The page: the instructions overlay, the start button, `window.startGame` and the `keys` map. They are browser input and output; `Arcade.StartGame` is what the button runs.
- `requestAnimationFrame` and `setTimeout`. Frames are applied one at a time by the caller, and timed calls are returned as requests; the 1200 ms timer that shows the overlay again is display only.
- `Math.random`, `Math.cos`, `Math.sin` and `Math.PI`. Draws and directions are parameters, so no claim is made about their distribution or about the unit length of a direction.
- The asteroid's polygon `points` and the bullet's `radius` of 2. Neither is used by any collision test.
- Floating-point rounding. Arithmetic is exact over the reals, including `r / 1.7` and `Math.hypot`.
- The wrap is not applied to distances, as in the source. Collisions are not detected across the wrap seam.
- Arcade.Frame: applies the corrected extra-life rule and the pending-advance flag instead of asteroids.js:250-257 as written; `Arcade.FrameAsWritten` is the frame as written, and `Arcade.FramesShareCollisions` shows the two differ only there.
- Arcade.KeyDown: requests a life loss for a hyperspace mishap, which the handler as written never schedules; `Arcade.KeyDownAsWritten` is the handler as written.
- Geometry.Move: gives no bound when p + v is below minus the canvas size, because the remainder is then non-positive, and off the field unless the sum is a multiple of the canvas size.

## Findings

| source | as written | input that shows it | evidently intended | confidence | as-written member | corrected member |
|---|---|---|---|---|---|---|
| asteroids.js:250-252 | the extra-life threshold `(lives - 3 + 1) * 10000` is recomputed each frame from the current lives | a fresh game with score 0 loses a life: lives go to 2, the next frame's threshold is 0, and the life comes back; lives never end a frame below 3, so `loseLife` never reaches gameover | one extra life per 10000 points earned, whatever has been lost | high; not executed | Arcade.AsWrittenLossIsRefunded | Arcade.ExtraLife |
| asteroids.js:254-257 | the level-clear check schedules `nextLevel` on every frame while the field is empty | the frame that clears the field and each following frame during the 1100 ms delay each schedule an advance, so the level jumps by many | one advance per cleared field | high; not executed | Arcade.AsWrittenLevelClearRepeats | Arcade.LevelAdvanceRequestedOnce |
| asteroids.js:65-69 | a hyperspace mishap sets `dead` without scheduling `loseLife` | H pressed on a live ship with a draw below 1/6: the ship is dead, no frame asks for its life loss, and it is never reset | a mishap takes a life as a collision does | medium; not executed | Arcade.MishapStrandsShip | Ships.Hyperspace |

`Arcade.Frame` uses the corrected extra-life rule and the pending-advance
flag, and `Arcade.KeyDown` uses the corrected jump. The as-written versions
are `Arcade.FrameAsWritten` (with `Arcade.ExtraLifeAsWritten`) and
`Arcade.KeyDownAsWritten` (with `Ships.HyperspaceAsWritten`).

=== FILE: arcade.dfy ===
/**
 * The game: its state machine (start, playing, game over), the transitions
 * `start`, `nextLevel` and `loseLife`, one frame of the game loop, and the
 * keyboard handlers.
 *
 * The source defers `loseLife` and `nextLevel` with timers.  Here a frame or
 * a key press returns the requests it would have scheduled, and the caller
 * applies `LoseLife` or `NextLevel` when the delay is over.
 */
module Arcade {
  import opened Geometry
  import opened Ships
  import opened Asteroids
  import opened Collisions

  /** The source's `state` strings 'start', 'playing' and 'gameover'. */
  datatype Mode = Start | Playing | GameOver

  /**
   * `levelPending` records that a level advance has been requested and not
   * yet carried out; the source has no such field (see `Frame`).
   */
  datatype Game = Game(ship: Ship, asteroids: seq<Asteroid>, level: int, state: Mode, levelPending: bool)

  /** Asteroids in the first wave; later waves hold 3 + level. */
  const FirstWave: nat := 4
  const WaveBase: int := 3
  /** Points per extra life. */
  const LifeBonusStep: int := 10000
  /** How far one press of an arrow key turns the ship, in radians. */
  const TurnStep: real := 0.13

  /** The `game` object as the page creates it. */
  function Boot(pl: Plane): (g: Game)
    ensures g.state == Start && g.level == 1 && g.asteroids == [] && !g.levelPending
    ensures g.ship == NewShip(pl)
  {
    Game(NewShip(pl), [], 1, Start, false)
  }

  /**
   * `game.start`: a new ship (three lives, no score, no shield), a wave of
   * four first-generation asteroids, level 1, playing.  Nothing of the
   * previous game survives.
   */
  function StartGame(pl: Plane, draws: nat -> SpawnDraw): (g: Game)
    ensures g.state == Playing && g.level == 1 && !g.levelPending
    ensures g.ship == NewShip(pl)
    ensures g.ship.lives == StartingLives && g.ship.score == 0
    ensures |g.asteroids| == FirstWave
    ensures forall a :: a in g.asteroids ==> a.gen == 1 && MinSpawnRadius <= a.r < MaxSpawnRadius
  {
    Game(NewShip(pl), Spawn(pl, FirstWave, draws), 1, Playing, false)
  }

  /**
   * `game.nextLevel`: one level up and a fresh wave of 3 + (new level)
   * first-generation asteroids replacing the field; the ship is untouched.
   */
  function NextLevel(g: Game, pl: Plane, draws: nat -> SpawnDraw): (r: Game)
    requires g.level >= 0
    ensures r.level == g.level + 1
    ensures |r.asteroids| == WaveBase + r.level
    ensures forall a :: a in r.asteroids ==> a.gen == 1 && MinSpawnRadius <= a.r < MaxSpawnRadius
    ensures r.ship == g.ship && r.state == g.state && !r.levelPending
  {
    var level := g.level + 1;
    g.(level := level, asteroids := Spawn(pl, WaveBase + level, draws), levelPending := false)
  }

  /**
   * `game.loseLife`: one life fewer.  With lives left the ship is reset
   * (centred, at rest, shielded, alive) and the state is kept; at zero lives
   * the game is over.
   */
  function LoseLife(g: Game, pl: Plane): (r: Game)
    ensures r.ship.lives == g.ship.lives - 1
    ensures r.ship.lives > 0 ==> r.state == g.state && r.ship == ShipReset(pl, g.ship).(lives := r.ship.lives)
    ensures r.ship.lives <= 0 ==> r.state == GameOver && r.ship == g.ship.(lives := r.ship.lives)
    ensures r.asteroids == g.asteroids && r.level == g.level && r.levelPending == g.levelPending
  {
    var lives := g.ship.lives - 1;
    if lives > 0 then g.(ship := ShipReset(pl, g.ship.(lives := lives)))
    else g.(ship := g.ship.(lives := lives), state := GameOver)
  }

  /** With two lives a loss resets the ship; with one it ends the game. */
  lemma LoseLifeCases(g: Game, pl: Plane)
    requires g.state == Playing
    ensures g.ship.lives == 2 ==> var r := LoseLife(g, pl);
              r.state == Playing && r.ship.lives == 1 && r.ship.invulnerable == RespawnShield && !r.ship.dead
    ensures g.ship.lives == 1 ==> LoseLife(g, pl).state == GameOver
  {
  }

  /* ---------------------------------------------------------------------- */
  /* Extra lives                                                             */
  /* ---------------------------------------------------------------------- */

  /**
   * The extra-life check as written: one life when the score reaches
   * (lives - 3 + 1) * 10000, the threshold recomputed every frame from the
   * current number of lives.  With two lives or fewer it always fires.
   */
  function ExtraLifeAsWritten(s: Ship): (r: Ship)
    ensures r.lives == s.lives + 1 <==> s.score >= (s.lives - 2) * LifeBonusStep
    ensures r.lives == s.lives || r.lives == s.lives + 1
    ensures r == s.(lives := r.lives)
    ensures s.lives <= 2 && s.score >= 0 ==> r.lives == s.lives + 1
  {
    if s.score >= (s.lives - StartingLives + 1) * LifeBonusStep then s.(lives := s.lives + 1) else s
  }

  /**
   * The extra-life rule with the threshold tied to the lives already
   * granted: one life at 10000 points, the next at 20000, and so on,
   * whatever has been lost in between.
   */
  function ExtraLife(s: Ship): (r: Ship)
    ensures r.lives == s.lives + 1 <==> s.score >= (s.bonusLives + 1) * LifeBonusStep
    ensures r.lives == s.lives || r.lives == s.lives + 1
    ensures r.bonusLives - s.bonusLives == r.lives - s.lives
    ensures r == s.(lives := r.lives, bonusLives := r.bonusLives)
  {
    if s.score >= (s.bonusLives + 1) * LifeBonusStep then s.(lives := s.lives + 1, bonusLives := s.bonusLives + 1) else s
  }

  /** As long as no life has been lost, the two rules grant the same lives. */
  lemma ExtraLifeAgreesWithoutLosses(s: Ship)
    requires s.lives == StartingLives + s.bonusLives
    ensures ExtraLife(s).lives == ExtraLifeAsWritten(s).lives
  {
  }

  /**
   * With the rule as written, a loss from three or more lives is handed back
   * by the next frame's check (the threshold drops to 0 points), so a ship
   * that starts with three lives never falls below three at a frame and
   * `loseLife` never ends the game.
   */
  lemma AsWrittenLossIsRefunded(g: Game, pl: Plane)
    requires g.ship.lives >= StartingLives && g.ship.score >= 0
    ensures LoseLife(g, pl).state == g.state
    ensures ExtraLifeAsWritten(LoseLife(g, pl).ship).lives >= StartingLives
  {
  }

  /** A frame's bonus check under the rule as written. */
  function BonusAsWritten(g: Game): Game {
    g.(ship := ExtraLifeAsWritten(g.ship))
  }

  /** A frame's bonus check under the corrected rule. */
  function Bonus(g: Game): Game {
    g.(ship := ExtraLife(g.ship))
  }

  /**
   * Three deaths of a fresh ship with no points, each followed by a frame:
   * under the rule as written the game goes on with three lives; under the
   * corrected rule it is over.
   */
  lemma ThreeLossesFromAFreshGame(pl: Plane, draws: nat -> SpawnDraw)
    ensures var g := StartGame(pl, draws);
            var w := LoseLife(BonusAsWritten(LoseLife(BonusAsWritten(LoseLife(g, pl)), pl)), pl);
            var c := LoseLife(Bonus(LoseLife(Bonus(LoseLife(g, pl)), pl)), pl);
            && w.state == Playing && BonusAsWritten(w).ship.lives == StartingLives
            && c.state == GameOver
  {
  }

  /* ---------------------------------------------------------------------- */
  /* One frame                                                               */
  /* ---------------------------------------------------------------------- */

  /** What a frame or a key press asks to be done after a delay. */
  datatype Requests = Requests(loseLife: bool, nextLevel: bool)

  const NoRequests := Requests(false, false)

  datatype Step = Step(game: Game, requests: Requests)

  /**
   * The inputs of one frame the source computes with trigonometry or draws
   * at random: the cosine and sine of the ship's heading, and the draws for
   * the children of the i-th asteroid.
   */
  datatype FrameDraws = FrameDraws(dir: Vec, kids: nat -> ChildDraws)

  function MoveAll(pl: Plane, asts: seq<Asteroid>): (r: seq<Asteroid>)
    ensures |r| == |asts|
    ensures forall i :: 0 <= i < |asts| ==> r[i] == AsteroidUpdate(pl, asts[i])
  {
    seq(|asts|, i requires 0 <= i < |asts| => AsteroidUpdate(pl, asts[i]))
  }

  /** The ship after the collision passes of a frame, the rebuilt field, and the life losses scheduled. */
  datatype Collided = Collided(ship: Ship, asteroids: seq<Asteroid>, deaths: nat)

  /**
   * The part of `gameLoop` that both frames share: ship and asteroids move,
   * the ship is tested against every asteroid, then every asteroid against
   * every bullet.  The score grows by the table value of each struck
   * asteroid, the field is rebuilt from the asteroids' fates, and exactly
   * the bullets that are the first inside some asteroid are spent.
   */
  function Collide(g: Game, pl: Plane, inp: FrameDraws): (c: Collided)
    ensures var moved := ShipUpdate(pl, g.ship, inp.dir);
            var field := MoveAll(pl, g.asteroids);
            var ps := Positions(moved.bullets);
            && c.deaths == ShipPass(moved, field).deaths
            && c.ship.score == g.ship.score + GainFrom(ps, field, 0)
            && c.asteroids == FatesFrom(ps, field, inp.kids, 0)
            && c.ship == ShipPass(moved, field).ship.(bullets := c.ship.bullets, score := c.ship.score)
            && Positions(c.ship.bullets) == ps
            && forall j :: 0 <= j < |ps| ==>
                 c.ship.bullets[j] == (if SpentFrom(ps, field, 0, j) then moved.bullets[j].(life := 0) else moved.bullets[j])
  {
    var moved := ShipUpdate(pl, g.ship, inp.dir);
    var field := MoveAll(pl, g.asteroids);
    var impact := ShipPass(moved, field);
    var pass := BulletPass(field, impact.ship.bullets, impact.ship.score, inp.kids);
    Collided(impact.ship.(bullets := pass.bullets, score := pass.score), pass.next, impact.deaths)
  }

  /**
   * One pass of `gameLoop` as written.  Outside play nothing changes.  In
   * play the collision passes run, then the extra-life check with the
   * threshold (lives - 2) * 10000, and an empty field asks for the next
   * level on every frame.
   */
  function FrameAsWritten(g: Game, pl: Plane, inp: FrameDraws): (st: Step)
    ensures g.state != Playing ==> st == Step(g, NoRequests)
    ensures g.state == Playing ==>
              var c := Collide(g, pl, inp);
              && st.game == g.(ship := st.game.ship, asteroids := c.asteroids)
              && st.game.ship == c.ship.(lives := st.game.ship.lives)
              && st.game.ship.lives == g.ship.lives + (if c.ship.score >= (g.ship.lives - 2) * LifeBonusStep then 1 else 0)
              && st.requests.loseLife == (c.deaths == 1)
    ensures st.requests.nextLevel <==> g.state == Playing && |st.game.asteroids| == 0
    ensures g.state == Playing && g.ship.lives <= 2 && g.ship.score >= 0 ==> st.game.ship.lives == g.ship.lives + 1
    ensures g.ship.dead ==> st.game.ship.dead && !st.requests.loseLife
    ensures st.game.ship.score >= g.ship.score
  {
    if g.state != Playing then Step(g, NoRequests)
    else
      var c := Collide(g, pl, inp);
      GainBounds(Positions(ShipUpdate(pl, g.ship, inp.dir).bullets), MoveAll(pl, g.asteroids), 0);
      Step(g.(ship := ExtraLifeAsWritten(c.ship), asteroids := c.asteroids),
           Requests(c.deaths == 1, |c.asteroids| == 0))
  }

  /**
   * One pass of `gameLoop` with the two checks corrected: the extra-life
   * threshold is tied to the lives already granted (`ExtraLife`), and a
   * level advance is asked for only when none is pending yet.  The
   * collision passes are those of the source.
   */
  function Frame(g: Game, pl: Plane, inp: FrameDraws): (st: Step)
    ensures g.state != Playing ==> st == Step(g, NoRequests)
    ensures g.state == Playing ==>
              var c := Collide(g, pl, inp);
              && st.game.asteroids == c.asteroids
              && st.game.ship == c.ship.(lives := st.game.ship.lives, bonusLives := st.game.ship.bonusLives)
              && st.game.ship.lives == g.ship.lives + (if c.ship.score >= (g.ship.bonusLives + 1) * LifeBonusStep then 1 else 0)
              && st.game.ship.bonusLives - g.ship.bonusLives == st.game.ship.lives - g.ship.lives
              && st.requests.loseLife == (c.deaths == 1)
    ensures st.game.state == g.state && st.game.level == g.level
    ensures st.requests.nextLevel <==> g.state == Playing && |st.game.asteroids| == 0 && !g.levelPending
    ensures st.game.levelPending == (g.levelPending || st.requests.nextLevel)
    ensures g.ship.dead ==> st.game.ship.dead && !st.requests.loseLife
    ensures st.game.ship.score >= g.ship.score
    ensures |st.game.ship.bullets| <= |g.ship.bullets|
  {
    if g.state != Playing then Step(g, NoRequests)
    else
      var c := Collide(g, pl, inp);
      GainBounds(Positions(ShipUpdate(pl, g.ship, inp.dir).bullets), MoveAll(pl, g.asteroids), 0);
      var clear := |c.asteroids| == 0 && !g.levelPending;
      Step(g.(ship := ExtraLife(c.ship), asteroids := c.asteroids, levelPending := g.levelPending || clear),
           Requests(c.deaths == 1, clear))
  }

  /**
   * The two frames run the same collision passes: they agree on the field,
   * the score, the bullets and the life-loss request, and differ only in
   * the extra-life and level-clear checks.
   */
  lemma FramesShareCollisions(g: Game, pl: Plane, inp: FrameDraws)
    ensures var w := FrameAsWritten(g, pl, inp);
            var c := Frame(g, pl, inp);
            && w.game.asteroids == c.game.asteroids
            && w.game.ship == c.game.ship.(lives := w.game.ship.lives, bonusLives := w.game.ship.bonusLives)
            && w.requests.loseLife == c.requests.loseLife
            && w.game.state == c.game.state && w.game.level == c.game.level
            && w.game.levelPending == g.levelPending
  {
  }

  /**
   * The ship-asteroid check inside a frame: a life loss is requested exactly
   * when the moved ship, alive and unshielded, overlaps a moved asteroid.
   */
  lemma FrameShipCollision(g: Game, pl: Plane, inp: FrameDraws)
    requires g.state == Playing
    ensures var moved := ShipUpdate(pl, g.ship, inp.dir);
            var field := MoveAll(pl, g.asteroids);
            Frame(g, pl, inp).requests.loseLife <==>
              Vulnerable(moved) && exists k :: 0 <= k < |field| && Collides(moved, field[k])
  {
  }

  /**
   * The corrected level-clear check asks once: after a frame that requests
   * the next level, no later frame asks again until the advance is made.
   */
  lemma LevelAdvanceRequestedOnce(g: Game, pl: Plane, inp: FrameDraws, inps: seq<FrameDraws>, inp': FrameDraws)
    ensures Frame(g, pl, inp).requests.nextLevel ==> !Frame(Frames(Frame(g, pl, inp).game, pl, inps), pl, inp').requests.nextLevel
  {
    if Frame(g, pl, inp).requests.nextLevel {
      PendingAdvanceStaysSilent(Frame(g, pl, inp).game, pl, inps, inp');
    }
  }

  /**
   * The level-clear check as written asks again on every frame while the
   * field is empty: an empty field stays empty, so two frames during the
   * delay schedule two advances, and carrying both out skips a level.
   */
  lemma AsWrittenLevelClearRepeats(g: Game, pl: Plane, inp: FrameDraws, inp': FrameDraws, draws: nat -> SpawnDraw)
    requires g.state == Playing && |g.asteroids| == 0 && g.level >= 1
    ensures var s1 := FrameAsWritten(g, pl, inp);
            var s2 := FrameAsWritten(s1.game, pl, inp');
            && s1.requests.nextLevel && s2.requests.nextLevel
            && NextLevel(NextLevel(s2.game, pl, draws), pl, draws).level == g.level + 2
  {
    var g1 := FrameAsWritten(g, pl, inp).game;
    assert FatesFrom(Positions(ShipUpdate(pl, g.ship, inp.dir).bullets), MoveAll(pl, g.asteroids), inp.kids, 0) == [];
    assert |g1.asteroids| == 0;
    assert FatesFrom(Positions(ShipUpdate(pl, g1.ship, inp'.dir).bullets), MoveAll(pl, g1.asteroids), inp'.kids, 0) == [];
  }

  /** Runs one frame per entry of `inps`, ignoring the requests. */
  function Frames(g: Game, pl: Plane, inps: seq<FrameDraws>): Game
    decreases |inps|
  {
    if |inps| == 0 then g else Frames(Frame(g, pl, inps[0]).game, pl, inps[1..])
  }

  /**
   * While an advance is pending, frames keep it pending and none asks for
   * another.
   */
  lemma {:induction false} PendingAdvanceStaysSilent(g: Game, pl: Plane, inps: seq<FrameDraws>, inp: FrameDraws)
    requires g.levelPending
    ensures Frames(g, pl, inps).levelPending
    ensures !Frame(Frames(g, pl, inps), pl, inp).requests.nextLevel
    decreases |inps|
  {
    if |inps| > 0 {
      PendingAdvanceStaysSilent(Frame(g, pl, inps[0]).game, pl, inps[1..], inp);
    }
  }

  /** Runs one frame as written per entry of `inps`, ignoring the requests. */
  function FramesAsWritten(g: Game, pl: Plane, inps: seq<FrameDraws>): Game
    decreases |inps|
  {
    if |inps| == 0 then g else FramesAsWritten(FrameAsWritten(g, pl, inps[0]).game, pl, inps[1..])
  }

  /** Through frames as written, too, a dead ship stays dead. */
  lemma {:induction false} AsWrittenDeadShipStaysDead(g: Game, pl: Plane, inps: seq<FrameDraws>)
    requires g.ship.dead
    ensures FramesAsWritten(g, pl, inps).ship.dead
    decreases |inps|
  {
    if |inps| > 0 {
      AsWrittenDeadShipStaysDead(FrameAsWritten(g, pl, inps[0]).game, pl, inps[1..]);
    }
  }

  /**
   * A hyperspace mishap as written strands the ship: H pressed in play with
   * a draw below 1/6 leaves the ship dead, no later frame as written asks
   * for its life loss, and so it is never reset and stays dead.
   */
  lemma MishapStrandsShip(g: Game, pl: Plane, d: KeyDraws, inps: seq<FrameDraws>)
    requires g.state == Playing && d.uMishap < MishapOdds
    ensures var h := KeyDownAsWritten(g, pl, KeyH, d);
            && h.ship.dead
            && FramesAsWritten(h, pl, inps).ship.dead
            && forall i :: 0 <= i < |inps| ==> !FrameAsWritten(FramesAsWritten(h, pl, inps[..i]), pl, inps[i]).requests.loseLife
  {
    var h := KeyDownAsWritten(g, pl, KeyH, d);
    AsWrittenDeadShipStaysDead(h, pl, inps);
    forall i | 0 <= i < |inps|
      ensures !FrameAsWritten(FramesAsWritten(h, pl, inps[..i]), pl, inps[i]).requests.loseLife
    {
      AsWrittenDeadShipStaysDead(h, pl, inps[..i]);
    }
  }

  /**
   * A dead ship stays dead through any number of frames: only `LoseLife`,
   * answering a request made when it died, revives it.
   */
  lemma {:induction false} DeadShipStaysDead(g: Game, pl: Plane, inps: seq<FrameDraws>)
    requires g.ship.dead
    ensures Frames(g, pl, inps).ship.dead
    decreases |inps|
  {
    if |inps| > 0 {
      DeadShipStaysDead(Frame(g, pl, inps[0]).game, pl, inps[1..]);
    }
  }

  /**
   * No frame asks for a dead ship's life loss.  A ship killed by the
   * hyperspace jump as written has no pending request, so it stays dead,
   * and out of reach of every asteroid, for the rest of the game.
   */
  lemma DeadShipAsksNothing(g: Game, pl: Plane, inps: seq<FrameDraws>)
    requires g.ship.dead
    ensures forall i :: 0 <= i < |inps| ==> !Frame(Frames(g, pl, inps[..i]), pl, inps[i]).requests.loseLife
  {
    forall i | 0 <= i < |inps|
      ensures !Frame(Frames(g, pl, inps[..i]), pl, inps[i]).requests.loseLife
    {
      DeadShipStaysDead(g, pl, inps[..i]);
    }
  }

  /* ---------------------------------------------------------------------- */
  /* Keyboard                                                                */
  /* ---------------------------------------------------------------------- */

  datatype Key = ArrowLeft | ArrowRight | ArrowUp | Space | KeyH | OtherKey

  /**
   * What a key press may need: the cosine and sine of the heading (for a
   * bullet) and the three draws of a hyperspace jump.
   */
  datatype KeyDraws = KeyDraws(dir: Vec, ux: Unit, uy: Unit, uMishap: Unit)

  /**
   * The keydown handler as written.  Outside play every key is ignored.  In
   * play only the ship changes: the arrows turn it by 0.13 rad or switch
   * thrust on, space fires and H jumps.  Nothing is scheduled.
   */
  function KeyDownAsWritten(g: Game, pl: Plane, key: Key, d: KeyDraws): (r: Game)
    ensures g.state != Playing ==> r == g
    ensures r == g.(ship := r.ship)
    ensures g.state == Playing && key == ArrowLeft ==> r.ship == g.ship.(turn := g.ship.turn - TurnStep)
    ensures g.state == Playing && key == ArrowRight ==> r.ship == g.ship.(turn := g.ship.turn + TurnStep)
    ensures g.state == Playing && key == ArrowUp ==> r.ship == g.ship.(thrust := true)
    ensures g.state == Playing && key == Space ==> r.ship == Shoot(g.ship, d.dir)
    ensures g.state == Playing && key == KeyH ==> r.ship == HyperspaceAsWritten(pl, g.ship, d.ux, d.uy, d.uMishap)
    ensures key == OtherKey ==> r == g
  {
    if g.state != Playing then g
    else
      match key
      case ArrowLeft => g.(ship := g.ship.(turn := g.ship.turn - TurnStep))
      case ArrowRight => g.(ship := g.ship.(turn := g.ship.turn + TurnStep))
      case ArrowUp => g.(ship := g.ship.(thrust := true))
      case Space => g.(ship := Shoot(g.ship, d.dir))
      case KeyH => g.(ship := HyperspaceAsWritten(pl, g.ship, d.ux, d.uy, d.uMishap))
      case OtherKey => g
  }

  /**
   * The keydown handler with the hyperspace mishap routed into the
   * life-loss path: the game changes exactly as the handler as written
   * changes it, and a jump that destroys a live ship asks for a life loss.
   */
  function KeyDown(g: Game, pl: Plane, key: Key, d: KeyDraws): (st: Step)
    ensures st.game == KeyDownAsWritten(g, pl, key, d)
    ensures !st.requests.nextLevel
    ensures st.requests.loseLife <==> g.state == Playing && key == KeyH && !g.ship.dead && st.game.ship.dead
    ensures g.state != Playing || key != KeyH ==> st == Step(KeyDownAsWritten(g, pl, key, d), NoRequests)
  {
    if g.state == Playing && key == KeyH then
      var jump := Hyperspace(pl, g.ship, d.ux, d.uy, d.uMishap);
      Step(g.(ship := jump.ship), Requests(jump.loseLife, false))
    else
      Step(KeyDownAsWritten(g, pl, key, d), NoRequests)
  }

  /** The keyup handler: releasing the up arrow ends thrust, in every state. */
  function KeyUp(g: Game, key: Key): (r: Game)
    ensures key == ArrowUp ==> r == g.(ship := g.ship.(thrust := false))
    ensures key != ArrowUp ==> r == g
  {
    if key == ArrowUp then g.(ship := g.ship.(thrust := false)) else g
  }

  /* ---------------------------------------------------------------------- */
  /* Invariant                                                               */
  /* ---------------------------------------------------------------------- */

  /**
   * What every reachable game satisfies: at most six bullets, a shield that
   * is never negative, asteroids within their size classes (so generation
   * 1 to 3), a score that is never negative and pays for every extra life
   * granted, and a level of at least 1.
   */
  predicate Valid(g: Game) {
    && |g.ship.bullets| <= FullMagazine + 1
    && g.ship.invulnerable >= 0
    && (forall a :: a in g.asteroids ==> SizeClass(a))
    && g.ship.score >= 0
    && 0 <= g.ship.bonusLives && g.ship.bonusLives * LifeBonusStep <= g.ship.score
    && g.level >= 1
  }

  lemma BootAndStartAreValid(pl: Plane, draws: nat -> SpawnDraw)
    ensures Valid(Boot(pl)) && Valid(StartGame(pl, draws))
  {
  }

  lemma NextLevelKeepsValid(g: Game, pl: Plane, draws: nat -> SpawnDraw)
    requires Valid(g)
    ensures Valid(NextLevel(g, pl, draws))
  {
  }

  lemma LoseLifeKeepsValid(g: Game, pl: Plane)
    requires Valid(g)
    ensures Valid(LoseLife(g, pl))
  {
  }

  lemma KeysKeepValid(g: Game, pl: Plane, key: Key, d: KeyDraws)
    requires Valid(g)
    ensures Valid(KeyDownAsWritten(g, pl, key, d)) && Valid(KeyDown(g, pl, key, d).game) && Valid(KeyUp(g, key))
  {
  }

  lemma MoveAllKeepsSizeClass(pl: Plane, asts: seq<Asteroid>)
    requires forall a :: a in asts ==> SizeClass(a)
    ensures forall a :: a in MoveAll(pl, asts) ==> SizeClass(a)
  {
    var field := MoveAll(pl, asts);
    forall a | a in field
      ensures SizeClass(a)
    {
      var i :| 0 <= i < |field| && field[i] == a;
      assert asts[i] in asts;
    }
  }

  /** The frame as written keeps the invariant as well. */
  lemma FrameAsWrittenKeepsValid(g: Game, pl: Plane, inp: FrameDraws)
    requires Valid(g)
    ensures Valid(FrameAsWritten(g, pl, inp).game)
  {
    FrameKeepsValid(g, pl, inp);
    FramesShareCollisions(g, pl, inp);
  }

  lemma FrameKeepsValid(g: Game, pl: Plane, inp: FrameDraws)
    requires Valid(g)
    ensures Valid(Frame(g, pl, inp).game)
  {
    if g.state == Playing {
      var moved := ShipUpdate(pl, g.ship, inp.dir);
      var field := MoveAll(pl, g.asteroids);
      var ps := Positions(moved.bullets);
      var c := Collide(g, pl, inp);
      MoveAllKeepsSizeClass(pl, g.asteroids);
      FatesInSizeClass(ps, field, inp.kids, 0);
      GainBounds(ps, field, 0);
      assert |c.ship.bullets| == |ps| <= |g.ship.bullets|;
      assert c.ship.bonusLives == g.ship.bonusLives && c.ship.score >= g.ship.score;
      assert Frame(g, pl, inp).game.ship == ExtraLife(c.ship);
    }
  }
}

=== FILE: asteroids.dfy ===
/**
 * Asteroids: motion, spawning along the canvas edges and the fragmentation
 * rule.  The random polygon outline an asteroid draws itself with is visual
 * only and is not modelled; collisions treat an asteroid as a circle.
 */
module Asteroids {
  import opened Geometry

  datatype Asteroid = Asteroid(pos: Vec, vel: Vec, r: real, gen: int)

  /** Radius above which a destroyed asteroid breaks into two. */
  const SplitRadius: real := 22.0
  /** A child's radius is its parent's divided by this. */
  const ShrinkFactor: real := 1.7
  const MinSpawnRadius: real := 32.0
  const MaxSpawnRadius: real := 50.0
  const MaxSpawnSpeed: real := 2.0

  /** `Asteroid.update`: straight-line motion, wrapped; nothing else changes. */
  function AsteroidUpdate(pl: Plane, a: Asteroid): (r: Asteroid)
    ensures r == a.(pos := r.pos)
    ensures a.vel.x >= -pl.width && a.vel.y >= -pl.height && OnCanvas(pl, a.pos) ==> InBounds(pl, r.pos)
    ensures a.vel == Origin && InBounds(pl, a.pos) ==> r == a
  {
    a.(pos := Move(pl, a.pos, a.vel))
  }

  /** The five draws `spawnAsteroids` makes for one asteroid. */
  datatype SpawnDraw = SpawnDraw(edge: Unit, along: Unit, size: Unit, dx: Unit, dy: Unit)

  /**
   * One asteroid of `spawnAsteroids`: an edge is picked (0 top, 1 bottom,
   * 2 left, 3 right), the asteroid is placed at a uniform point of it, with a
   * radius in [32, 50) and each velocity component in [-2, 2).
   */
  function SpawnOne(pl: Plane, d: SpawnDraw): (a: Asteroid)
    ensures a.gen == 1
    ensures MinSpawnRadius <= a.r < MaxSpawnRadius
    ensures -MaxSpawnSpeed <= a.vel.x < MaxSpawnSpeed && -MaxSpawnSpeed <= a.vel.y < MaxSpawnSpeed
    ensures OnCanvas(pl, a.pos)
    ensures a.pos.x == 0.0 || a.pos.x == pl.width || a.pos.y == 0.0 || a.pos.y == pl.height
  {
    var edge := RandBetween(0.0, 4.0, d.edge).Floor;
    var x := if edge < 2 then RandBetween(0.0, pl.width, d.along) else if edge == 2 then 0.0 else pl.width;
    var y := if edge > 1 then RandBetween(0.0, pl.height, d.along) else if edge == 0 then 0.0 else pl.height;
    var r := RandBetween(MinSpawnRadius, MaxSpawnRadius, d.size);
    Asteroid(Vec(x, y), Vec(RandBetween(-MaxSpawnSpeed, MaxSpawnSpeed, d.dx), RandBetween(-MaxSpawnSpeed, MaxSpawnSpeed, d.dy)), r, 1)
  }

  /**
   * `spawnAsteroids(n)`: n first-generation asteroids; `draws(i)` are the
   * random draws of the i-th.
   */
  function Spawn(pl: Plane, n: nat, draws: nat -> SpawnDraw): (r: seq<Asteroid>)
    ensures |r| == n
    ensures forall i :: 0 <= i < n ==> r[i] == SpawnOne(pl, draws(i))
    ensures forall a :: a in r ==> a.gen == 1 && MinSpawnRadius <= a.r < MaxSpawnRadius && OnCanvas(pl, a.pos)
    ensures forall a :: a in r ==> SizeClass(a)
  {
    seq(n, i requires 0 <= i < n => SpawnOne(pl, draws(i)))
  }

  /** The draws for one child: the cosine and sine of its direction, and its speed. */
  datatype ChildDraw = ChildDraw(dir: Vec, speed: Unit)

  /** The draws for the two children of one asteroid. */
  datatype ChildDraws = ChildDraws(first: ChildDraw, second: ChildDraw)

  function Child(a: Asteroid, d: ChildDraw): Asteroid {
    Asteroid(a.pos, Scale(RandBetween(1.0, 2.0, d.speed), d.dir), a.r / ShrinkFactor, a.gen + 1)
  }

  /**
   * The two pieces a large asteroid breaks into: both at the parent's
   * position, radius r / 1.7, one generation deeper, each with its own
   * randomly drawn direction and a speed in [1, 2).
   */
  function Fragments(a: Asteroid, d: ChildDraws): (kids: seq<Asteroid>)
    ensures |kids| == 2
    ensures forall k :: k in kids ==> k.pos == a.pos && k.r * ShrinkFactor == a.r && k.gen == a.gen + 1
    ensures a.r > 0.0 ==> forall k :: k in kids ==> 0.0 < k.r < a.r
  {
    [Child(a, d.first), Child(a, d.second)]
  }

  /**
   * The size classes asteroids fall into: generation 1 spawns below radius
   * 50; each split divides the radius by 1.7, so generation 2 stays below
   * 50 / 1.7 and generation 3 is at most 22 and never splits again.
   */
  predicate SizeClass(a: Asteroid) {
    && a.r > 0.0
    && (|| (a.gen == 1 && a.r < MaxSpawnRadius)
        || (a.gen == 2 && a.r * ShrinkFactor < MaxSpawnRadius)
        || (a.gen == 3 && a.r <= SplitRadius))
  }

  /**
   * Splitting keeps the size classes: the children of a large asteroid are
   * again in a class, and so no asteroid ever goes beyond generation 3.
   */
  lemma FragmentsInSizeClass(a: Asteroid, d: ChildDraws)
    requires SizeClass(a) && a.r > SplitRadius
    ensures a.gen < 3
    ensures forall k :: k in Fragments(a, d) ==> SizeClass(k)
  {
    var kids := Fragments(a, d);
    forall k | k in kids
      ensures SizeClass(k)
    {
      assert k.r * ShrinkFactor == a.r;
      if a.gen == 2 {
        assert k.r * 1.7 * 1.7 < 50.0;
      }
    }
  }
}

=== FILE: collisions.dfy ===
/**
 * The collision passes of one frame: the ship against every asteroid, then
 * every asteroid against every bullet, with scoring and fragmentation.
 *
 * The passes are written as the source's loops (`ShipSweep`, `ScanBullets`,
 * `Sweep`) and are related by lemmas to independent descriptions of their
 * outcome (`Struck`, `Fate`, `GainFrom`, `FirstInside`).
 */
module Collisions {
  import opened Geometry
  import opened Ships
  import opened Asteroids

  datatype Option<T> = None | Some(value: T)

  /* ---------------------------------------------------------------------- */
  /* Ship against asteroid                                                   */
  /* ---------------------------------------------------------------------- */

  /** The ship can be destroyed: it is alive and its shield has run out. */
  predicate Vulnerable(s: Ship) {
    !s.dead && s.invulnerable <= 0
  }

  /** The ship's circle and the asteroid's circle overlap. */
  predicate Collides(s: Ship, a: Asteroid) {
    Overlaps(s.pos, a.pos, a.r + ShipRadius)
  }

  /** The ship after the pass, and how many life losses the pass scheduled. */
  datatype Impact = Impact(ship: Ship, deaths: nat)

  /** The loop over the asteroids from index i on. */
  function ShipSweep(s: Ship, asts: seq<Asteroid>, i: nat, deaths: nat): (r: Impact)
    requires i <= |asts|
    ensures r.deaths == deaths + (if Vulnerable(s) && exists k :: i <= k < |asts| && Collides(s, asts[k]) then 1 else 0)
    ensures r.ship == s.(dead := s.dead || r.deaths > deaths)
    decreases |asts| - i
  {
    if i == |asts| then Impact(s, deaths)
    else if !s.dead && s.invulnerable <= 0 && Overlaps(s.pos, asts[i].pos, asts[i].r + ShipRadius) then
      ShipSweep(s.(dead := true), asts, i + 1, deaths + 1)
    else
      ShipSweep(s, asts, i + 1, deaths)
  }

  /**
   * The ship-asteroid pass.  The ship dies, and exactly one life loss is
   * scheduled, exactly when it was alive and unshielded and some asteroid
   * lies strictly closer than the sum of the radii; once it is dead, later
   * asteroids schedule nothing more.
   */
  function ShipPass(s: Ship, asts: seq<Asteroid>): (r: Impact)
    ensures r.deaths <= 1
    ensures r.deaths == 1 <==> Vulnerable(s) && exists k :: 0 <= k < |asts| && Collides(s, asts[k])
    ensures r.ship == s.(dead := s.dead || r.deaths == 1)
  {
    ShipSweep(s, asts, 0, 0)
  }

  /* ---------------------------------------------------------------------- */
  /* Bullet against asteroid                                                 */
  /* ---------------------------------------------------------------------- */

  /** Points for destroying an asteroid, indexed by generation. */
  const ScoreTable: seq<int> := [20, 50, 100]
  /** What a generation outside the table scores. */
  const ScoreOutsideTable: int := 100

  /** `[20, 50, 100][gen - 1] || 100`. */
  function Points(gen: int): (p: int)
    ensures gen == 1 ==> p == 20
    ensures gen == 2 ==> p == 50
    ensures gen != 1 && gen != 2 ==> p == 100
  {
    if 1 <= gen <= |ScoreTable| then ScoreTable[gen - 1] else ScoreOutsideTable
  }

  function Positions(bs: seq<Bullet>): (ps: seq<Vec>)
    ensures |ps| == |bs|
    ensures forall j :: 0 <= j < |bs| ==> ps[j] == bs[j].pos
  {
    seq(|bs|, j requires 0 <= j < |bs| => bs[j].pos)
  }

  /** The first position from index j on that lies strictly within `reach` of c. */
  function FirstWithin(ps: seq<Vec>, c: Vec, reach: real, j: nat): (k: Option<nat>)
    requires j <= |ps|
    ensures k.None? ==> forall m :: j <= m < |ps| ==> !Overlaps(ps[m], c, reach)
    ensures k.Some? ==> j <= k.value < |ps| && Overlaps(ps[k.value], c, reach)
    ensures k.Some? ==> forall m :: j <= m < k.value ==> !Overlaps(ps[m], c, reach)
    decreases |ps| - j
  {
    if j == |ps| then None
    else if Overlaps(ps[j], c, reach) then Some(j)
    else FirstWithin(ps, c, reach, j + 1)
  }

  /** Expire bullet j: `b.life = 0`. */
  function Spend(bs: seq<Bullet>, j: nat): (r: seq<Bullet>)
    requires j < |bs|
    ensures |r| == |bs| && Positions(r) == Positions(bs)
    ensures r[j] == bs[j].(life := 0)
    ensures forall m :: 0 <= m < |bs| && m != j ==> r[m] == bs[m]
  {
    var r := bs[j := bs[j].(life := 0)];
    assert Positions(r) == Positions(bs);
    r
  }

  /**
   * The state the inner loop carries: the asteroid's current radius (the
   * source overwrites it with 0 on a hit), the bullets, the score and the
   * list of asteroids being rebuilt.
   */
  datatype Scan = Scan(r: real, bullets: seq<Bullet>, score: int, next: seq<Asteroid>)

  /** The inner loop over the bullets, from bullet j on, for asteroid a. */
  function ScanBullets(a: Asteroid, d: ChildDraws, st: Scan, j: nat): (r: Scan)
    requires j <= |st.bullets|
    ensures Positions(r.bullets) == Positions(st.bullets)
    ensures r.r == st.r ==> r == st
    ensures r.r == st.r || r.r == 0.0
    ensures r.score == st.score || r.score == st.score + Points(a.gen)
    ensures |st.next| <= |r.next| <= |st.next| + 2 && r.next[..|st.next|] == st.next
    decreases |st.bullets| - j
  {
    if j == |st.bullets| then st
    else if Overlaps(st.bullets[j].pos, a.pos, st.r) then
      var kids := if st.r > SplitRadius then Fragments(a.(r := st.r), d) else [];
      ScanBullets(a, d, Scan(0.0, Spend(st.bullets, j), st.score + Points(a.gen), st.next + kids), j + 1)
    else
      ScanBullets(a, d, st, j + 1)
  }

  /**
   * At most one hit per asteroid and pass: the first bullet inside the
   * asteroid is spent, scores once and fragments once; the radius is then 0
   * and, a distance never being negative, no later bullet matches.
   */
  lemma {:induction false} ScanOutcome(a: Asteroid, d: ChildDraws, st: Scan, j: nat)
    requires j <= |st.bullets|
    ensures var out := ScanBullets(a, d, st, j);
            var first := FirstWithin(Positions(st.bullets), a.pos, st.r, j);
            && (first.None? ==> out == st)
            && (first.Some? ==>
                  out == Scan(0.0, Spend(st.bullets, first.value), st.score + Points(a.gen),
                              st.next + (if st.r > SplitRadius then Fragments(a.(r := st.r), d) else [])))
    decreases |st.bullets| - j
  {
    if j < |st.bullets| {
      if Overlaps(st.bullets[j].pos, a.pos, st.r) {
        var kids := if st.r > SplitRadius then Fragments(a.(r := st.r), d) else [];
        var st' := Scan(0.0, Spend(st.bullets, j), st.score + Points(a.gen), st.next + kids);
        ScanOutcome(a, d, st', j + 1);
      } else {
        ScanOutcome(a, d, st, j + 1);
      }
    }
  }

  /** The bullets, the score and the rebuilt asteroid list after the pass. */
  datatype Pass = Pass(bullets: seq<Bullet>, score: int, next: seq<Asteroid>)

  /**
   * One turn of the outer loop, for asteroid a: the inner loop over the
   * bullets, then the asteroid itself is kept when its radius is still
   * positive.
   */
  function Visit(a: Asteroid, d: ChildDraws, acc: Pass): (r: Pass)
    ensures Positions(r.bullets) == Positions(acc.bullets)
    ensures r.score == acc.score || r.score == acc.score + Points(a.gen)
    ensures |acc.next| <= |r.next| <= |acc.next| + 2 && r.next[..|acc.next|] == acc.next
  {
    var s := ScanBullets(a, d, Scan(a.r, acc.bullets, acc.score, acc.next), 0);
    var next := if s.r > 0.0 then s.next + [a.(r := s.r)] else s.next;
    Pass(s.bullets, s.score, next)
  }

  /** The outer loop over the asteroids from index i on. */
  function Sweep(asts: seq<Asteroid>, draws: nat -> ChildDraws, acc: Pass, i: nat): (r: Pass)
    requires i <= |asts|
    ensures Positions(r.bullets) == Positions(acc.bullets)
    ensures r.score >= acc.score
    ensures |acc.next| <= |r.next| <= |acc.next| + 2 * (|asts| - i) && r.next[..|acc.next|] == acc.next
    decreases |asts| - i
  {
    if i == |asts| then acc
    else Sweep(asts, draws, Visit(asts[i], draws(i), acc), i + 1)
  }

  /* Independent description of the pass's outcome */

  /** Some bullet lies strictly inside asteroid a. */
  predicate Struck(ps: seq<Vec>, a: Asteroid) {
    exists j :: 0 <= j < |ps| && Overlaps(ps[j], a.pos, a.r)
  }

  /** Bullet j is the first bullet, in order, inside asteroid a. */
  predicate FirstInside(ps: seq<Vec>, a: Asteroid, j: int) {
    && 0 <= j < |ps|
    && Overlaps(ps[j], a.pos, a.r)
    && forall m :: 0 <= m < j ==> !Overlaps(ps[m], a.pos, a.r)
  }

  /** What replaces asteroid a in the rebuilt list. */
  function Fate(ps: seq<Vec>, a: Asteroid, d: ChildDraws): seq<Asteroid> {
    if Struck(ps, a) then (if a.r > SplitRadius then Fragments(a, d) else [])
    else if a.r > 0.0 then [a]
    else []
  }

  function FatesFrom(ps: seq<Vec>, asts: seq<Asteroid>, draws: nat -> ChildDraws, i: nat): seq<Asteroid>
    requires i <= |asts|
    decreases |asts| - i
  {
    if i == |asts| then [] else Fate(ps, asts[i], draws(i)) + FatesFrom(ps, asts, draws, i + 1)
  }

  /** Score of the struck asteroids from index i on, each counted once. */
  function GainFrom(ps: seq<Vec>, asts: seq<Asteroid>, i: nat): int
    requires i <= |asts|
    decreases |asts| - i
  {
    if i == |asts| then 0
    else (if Struck(ps, asts[i]) then Points(asts[i].gen) else 0) + GainFrom(ps, asts, i + 1)
  }

  /** Bullet j is the first bullet inside some asteroid from index i on. */
  predicate SpentFrom(ps: seq<Vec>, asts: seq<Asteroid>, i: nat, j: int) {
    exists k :: i <= k < |asts| && FirstInside(ps, asts[k], j)
  }

  lemma FirstWithinMeansFirstInside(ps: seq<Vec>, a: Asteroid, j: int)
    ensures Struck(ps, a) <==> FirstWithin(ps, a.pos, a.r, 0).Some?
    ensures FirstInside(ps, a, j) <==> FirstWithin(ps, a.pos, a.r, 0) == Some(j)
  {
    var f := FirstWithin(ps, a.pos, a.r, 0);
    if FirstInside(ps, a, j) {
      assert f.Some?;
    }
  }

  lemma SpentFromStep(ps: seq<Vec>, asts: seq<Asteroid>, i: nat, j: int)
    requires i < |asts|
    ensures SpentFrom(ps, asts, i, j) <==> FirstInside(ps, asts[i], j) || SpentFrom(ps, asts, i + 1, j)
  {
    if SpentFrom(ps, asts, i, j) {
      var k :| i <= k < |asts| && FirstInside(ps, asts[k], j);
      if k > i {
        assert SpentFrom(ps, asts, i + 1, j);
      }
    }
  }

  /** One turn of the outer loop scores asteroid a's table value exactly when it is struck. */
  lemma VisitGain(a: Asteroid, d: ChildDraws, acc: Pass)
    ensures Visit(a, d, acc).score == acc.score + (if Struck(Positions(acc.bullets), a) then Points(a.gen) else 0)
  {
    ScanOutcome(a, d, Scan(a.r, acc.bullets, acc.score, acc.next), 0);
    FirstWithinMeansFirstInside(Positions(acc.bullets), a, 0);
  }

  /** One turn of the outer loop appends asteroid a's fate to the rebuilt list. */
  lemma VisitFate(a: Asteroid, d: ChildDraws, acc: Pass)
    ensures Visit(a, d, acc).next == acc.next + Fate(Positions(acc.bullets), a, d)
  {
    ScanOutcome(a, d, Scan(a.r, acc.bullets, acc.score, acc.next), 0);
    FirstWithinMeansFirstInside(Positions(acc.bullets), a, 0);
  }

  /** One turn of the outer loop spends exactly the first bullet inside asteroid a. */
  lemma VisitSpends(a: Asteroid, d: ChildDraws, acc: Pass)
    ensures var out := Visit(a, d, acc);
            var ps := Positions(acc.bullets);
            forall j :: 0 <= j < |ps| ==>
              out.bullets[j] == (if FirstInside(ps, a, j) then acc.bullets[j].(life := 0) else acc.bullets[j])
  {
    var ps := Positions(acc.bullets);
    ScanOutcome(a, d, Scan(a.r, acc.bullets, acc.score, acc.next), 0);
    forall j | 0 <= j < |ps|
      ensures Visit(a, d, acc).bullets[j] == (if FirstInside(ps, a, j) then acc.bullets[j].(life := 0) else acc.bullets[j])
    {
      FirstWithinMeansFirstInside(ps, a, j);
    }
  }

  /** The outer loop's score gain agrees with the independent description, from index i on. */
  lemma {:induction false} SweepGain(asts: seq<Asteroid>, draws: nat -> ChildDraws, acc: Pass, i: nat)
    requires i <= |asts|
    ensures Sweep(asts, draws, acc, i).score == acc.score + GainFrom(Positions(acc.bullets), asts, i)
    decreases |asts| - i
  {
    if i < |asts| {
      VisitGain(asts[i], draws(i), acc);
      SweepGain(asts, draws, Visit(asts[i], draws(i), acc), i + 1);
    }
  }

  /** The outer loop's rebuilt list agrees with the independent description, from index i on. */
  lemma {:induction false} SweepFates(asts: seq<Asteroid>, draws: nat -> ChildDraws, acc: Pass, i: nat)
    requires i <= |asts|
    ensures Sweep(asts, draws, acc, i).next == acc.next + FatesFrom(Positions(acc.bullets), asts, draws, i)
    decreases |asts| - i
  {
    var ps := Positions(acc.bullets);
    if i == |asts| {
      assert acc.next + [] == acc.next;
    } else {
      var a := asts[i];
      var acc' := Visit(a, draws(i), acc);
      var fate := Fate(ps, a, draws(i));
      var rest := FatesFrom(ps, asts, draws, i + 1);
      assert Sweep(asts, draws, acc, i).next == acc'.next + rest by {
        SweepFates(asts, draws, acc', i + 1);
        assert Sweep(asts, draws, acc, i) == Sweep(asts, draws, acc', i + 1);
      }
      assert acc'.next == acc.next + fate by {
        VisitFate(a, draws(i), acc);
      }
      assert FatesFrom(ps, asts, draws, i) == fate + rest;
      assert (acc.next + fate) + rest == acc.next + (fate + rest);
    }
  }

  /** The outer loop spends exactly the bullets that are first inside some asteroid from index i on. */
  lemma {:induction false} SweepSpends(asts: seq<Asteroid>, draws: nat -> ChildDraws, acc: Pass, i: nat)
    requires i <= |asts|
    ensures var out := Sweep(asts, draws, acc, i);
            var ps := Positions(acc.bullets);
            forall j :: 0 <= j < |ps| ==>
              out.bullets[j] == (if SpentFrom(ps, asts, i, j) then acc.bullets[j].(life := 0) else acc.bullets[j])
    decreases |asts| - i
  {
    var ps := Positions(acc.bullets);
    if i < |asts| {
      var a := asts[i];
      var acc' := Visit(a, draws(i), acc);
      VisitSpends(a, draws(i), acc);
      SweepSpends(asts, draws, acc', i + 1);
      var out := Sweep(asts, draws, acc', i + 1);
      forall j | 0 <= j < |ps|
        ensures out.bullets[j] == (if SpentFrom(ps, asts, i, j) then acc.bullets[j].(life := 0) else acc.bullets[j])
      {
        SpentFromStep(ps, asts, i, j);
      }
    }
  }

  /**
   * The bullet-asteroid pass of one frame.  Measured against the bullet
   * positions: the score grows by the table value of every struck asteroid,
   * once each; the rebuilt list holds, in order, each asteroid's fate (an
   * unstruck asteroid unchanged, a struck one replaced by its two fragments
   * when its radius exceeds 22 and by nothing otherwise); exactly the
   * bullets that are the first inside some asteroid are spent, and no bullet
   * moves.
   */
  function BulletPass(asts: seq<Asteroid>, bullets: seq<Bullet>, score: int, draws: nat -> ChildDraws): (p: Pass)
    ensures Positions(p.bullets) == Positions(bullets)
    ensures p.score == score + GainFrom(Positions(bullets), asts, 0)
    ensures p.next == FatesFrom(Positions(bullets), asts, draws, 0)
    ensures forall j :: 0 <= j < |bullets| ==>
              p.bullets[j] == (if SpentFrom(Positions(bullets), asts, 0, j) then bullets[j].(life := 0) else bullets[j])
  {
    SweepGain(asts, draws, Pass(bullets, score, []), 0);
    SweepFates(asts, draws, Pass(bullets, score, []), 0);
    SweepSpends(asts, draws, Pass(bullets, score, []), 0);
    assert [] + FatesFrom(Positions(bullets), asts, draws, 0) == FatesFrom(Positions(bullets), asts, draws, 0);
    Sweep(asts, draws, Pass(bullets, score, []), 0)
  }

  /** Each asteroid is scored at most once, for at most 100 points. */
  lemma {:induction false} GainBounds(ps: seq<Vec>, asts: seq<Asteroid>, i: nat)
    requires i <= |asts|
    ensures 0 <= GainFrom(ps, asts, i) <= ScoreOutsideTable * (|asts| - i)
    decreases |asts| - i
  {
    if i < |asts| {
      GainBounds(ps, asts, i + 1);
    }
  }

  /** The rebuilt list stays within the size classes, so generations never exceed 3. */
  lemma {:induction false} FatesInSizeClass(ps: seq<Vec>, asts: seq<Asteroid>, draws: nat -> ChildDraws, i: nat)
    requires i <= |asts|
    requires forall a :: a in asts ==> SizeClass(a)
    ensures forall a :: a in FatesFrom(ps, asts, draws, i) ==> SizeClass(a)
    decreases |asts| - i
  {
    if i < |asts| {
      FatesInSizeClass(ps, asts, draws, i + 1);
      var a := asts[i];
      if Struck(ps, a) && a.r > SplitRadius {
        FragmentsInSizeClass(a, draws(i));
      }
    }
  }

  /**
   * Two bullets inside one asteroid: the asteroid scores once and only the
   * first bullet is spent; the second keeps its remaining life.
   */
  lemma DoubleHitScoresOnce(a: Asteroid, b0: Bullet, b1: Bullet, score: int, draws: nat -> ChildDraws)
    requires Overlaps(b0.pos, a.pos, a.r) && Overlaps(b1.pos, a.pos, a.r)
    ensures var p := BulletPass([a], [b0, b1], score, draws);
            && p.score == score + Points(a.gen)
            && p.bullets == [b0.(life := 0), b1]
            && p.next == (if a.r > SplitRadius then Fragments(a, draws(0)) else [])
  {
    var bs := [b0, b1];
    var ps := Positions(bs);
    var p := BulletPass([a], bs, score, draws);
    assert Struck(ps, a) by {
      assert Overlaps(ps[0], a.pos, a.r);
    }
    assert FirstInside(ps, a, 0);
    assert !FirstInside(ps, a, 1) by {
      assert Overlaps(ps[0], a.pos, a.r);
    }
    assert SpentFrom(ps, [a], 0, 0);
    assert !SpentFrom(ps, [a], 0, 1);
    assert p.bullets == [b0.(life := 0), b1];
    assert FatesFrom(ps, [a], draws, 1) == [];
    assert GainFrom(ps, [a], 1) == 0;
  }

  /**
   * One bullet inside two asteroids destroys both in the same pass: the
   * source does not skip a bullet it has already spent.
   */
  lemma OneBulletTwoHits(a0: Asteroid, a1: Asteroid, b: Bullet, score: int, draws: nat -> ChildDraws)
    requires Overlaps(b.pos, a0.pos, a0.r) && Overlaps(b.pos, a1.pos, a1.r)
    ensures var p := BulletPass([a0, a1], [b], score, draws);
            && p.score == score + Points(a0.gen) + Points(a1.gen)
            && p.bullets == [b.(life := 0)]
            && p.next == (if a0.r > SplitRadius then Fragments(a0, draws(0)) else [])
                       + (if a1.r > SplitRadius then Fragments(a1, draws(1)) else [])
  {
    var asts := [a0, a1];
    var ps := Positions([b]);
    assert Struck(ps, a0) && Struck(ps, a1) by {
      assert Overlaps(ps[0], a0.pos, a0.r) && Overlaps(ps[0], a1.pos, a1.r);
    }
    assert FirstInside(ps, asts[0], 0);
    assert SpentFrom(ps, asts, 0, 0);
    assert FatesFrom(ps, asts, draws, 2) == [];
    assert FatesFrom(ps, asts, draws, 1) == Fate(ps, a1, draws(1));
    assert GainFrom(ps, asts, 1) == Points(a1.gen) + GainFrom(ps, asts, 2);
    assert GainFrom(ps, asts, 2) == 0;
  }
}

=== FILE: geometry.dfy ===
/**
 * Geometry of the playing field: points and vectors over exact reals, the
 * toroidal wrap of a coordinate, uniform sampling from a supplied random
 * draw, and the strict circle-overlap test used by every collision check.
 */
module Geometry {

  /** A point or a velocity in the plane. */
  datatype Vec = Vec(x: real, y: real)

  const Origin := Vec(0.0, 0.0)

  function Add(p: Vec, q: Vec): Vec {
    Vec(p.x + q.x, p.y + q.y)
  }

  function Scale(k: real, v: Vec): Vec {
    Vec(k * v.x, k * v.y)
  }

  /** Size of the canvas; both sides are positive. */
  datatype Size = Size(width: real, height: real)

  type Plane = s: Size | s.width > 0.0 && s.height > 0.0 witness Size(1.0, 1.0)

  function Centre(pl: Plane): Vec {
    Vec(pl.width / 2.0, pl.height / 2.0)
  }

  /** Closed box [0,width] x [0,height]: where spawned asteroids may start. */
  predicate OnCanvas(pl: Plane, p: Vec) {
    0.0 <= p.x <= pl.width && 0.0 <= p.y <= pl.height
  }

  /** Half-open box [0,width) x [0,height): where wrapped positions land. */
  predicate InBounds(pl: Plane, p: Vec) {
    0.0 <= p.x < pl.width && 0.0 <= p.y < pl.height
  }

  /** A value returned by the runtime's uniform generator: 0 <= u < 1. */
  type Unit = u: real | 0.0 <= u < 1.0

  /** Truncation toward zero, the rounding of a floating-point remainder. */
  function Trunc(x: real): int {
    if x >= 0.0 then x.Floor else -((-x).Floor)
  }

  /**
   * The remainder operator on numbers: the dividend less a whole multiple of
   * the divisor, the quotient truncated toward zero, so that the result has
   * the sign of the dividend and a magnitude below the divisor.
   */
  function Rem(a: real, m: real): (r: real)
    requires m > 0.0
    ensures a >= 0.0 ==> 0.0 <= r < m
    ensures a < 0.0 ==> -m < r <= 0.0
  {
    if a >= 0.0 then
      FloorRemBounds(a, m);
      a - m * (Trunc(a / m) as real)
    else
      assert (-a) / m == -(a / m);
      FloorRemBounds(-a, m);
      a - m * (Trunc(a / m) as real)
  }

  /* Small facts of real arithmetic, each proved in a context of its own. */

  lemma MulPositive(x: real, y: real)
    requires x > 0.0 && y > 0.0
    ensures x * y > 0.0
  {
  }

  lemma MulNonNegative(x: real, y: real)
    requires x >= 0.0 && y >= 0.0
    ensures x * y >= 0.0
  {
    if x > 0.0 && y > 0.0 {
      MulPositive(x, y);
    }
  }

  lemma MulLess(m: real, x: real, y: real)
    requires m > 0.0 && x < y
    ensures m * x < m * y
  {
    MulPositive(m, y - x);
    assert m * (y - x) == m * y - m * x;
  }

  lemma MulAtMost(m: real, x: real, y: real)
    requires m > 0.0 && x <= y
    ensures m * x <= m * y
  {
    if x < y {
      MulLess(m, x, y);
    }
  }

  lemma CancelAtMost(m: real, x: real, y: real)
    requires m > 0.0 && m * x <= m * y
    ensures x <= y
  {
    if y < x {
      MulLess(m, y, x);
    }
  }

  lemma CancelLess(m: real, x: real, y: real)
    requires m > 0.0 && m * x < m * y
    ensures x < y
  {
    if y <= x {
      MulAtMost(m, y, x);
    }
  }

  lemma DivThenMul(a: real, m: real)
    requires m > 0.0
    ensures m * (a / m) == a
  {
  }

  lemma FloorRemBounds(a: real, m: real)
    requires m > 0.0 && a >= 0.0
    ensures 0.0 <= a - m * ((a / m).Floor as real) < m
  {
    var q := a / m;
    var k := q.Floor as real;
    DivThenMul(a, m);
    assert k <= q < k + 1.0;
    MulAtMost(m, k, q);
    MulLess(m, q, k + 1.0);
    assert m * (k + 1.0) == m * k + m;
    assert a < m * k + m;
    assert m * k <= a;
  }

  /** If a lies in [k*m, (k+1)*m) then its remainder is a - k*m. */
  lemma RemExact(a: real, m: real, k: int)
    requires m > 0.0 && k >= 0
    requires m * (k as real) <= a < m * (k as real + 1.0)
    ensures Rem(a, m) == a - m * (k as real)
  {
    var q := a / m;
    DivThenMul(a, m);
    CancelAtMost(m, k as real, q);
    CancelLess(m, q, k as real + 1.0);
    assert q.Floor == k;
  }

  lemma WrapCases(p: real, max: real)
    requires max > 0.0
    ensures -max <= p ==> 0.0 <= Rem(p + max, max) < max
    ensures 0.0 <= p < max ==> Rem(p + max, max) == p
    ensures -max <= p < 0.0 ==> Rem(p + max, max) == p + max
    ensures max <= p < 2.0 * max ==> Rem(p + max, max) == p - max
    ensures p < -max ==> -max < Rem(p + max, max) <= 0.0
  {
    var a := p + max;
    if a >= 0.0 {
      if 0.0 <= p < max {
        RemExact(a, max, 1);
      } else if p < 0.0 {
        RemExact(a, max, 0);
      } else if p < 2.0 * max {
        RemExact(a, max, 2);
      }
    }
  }

  /**
   * wrap(p, max) = (p + max) % max.  For any p >= -max the result lies in
   * [0, max); inside the field it is the identity, one field-length off it
   * shifts by max; further below -max the remainder is non-positive, and
   * negative (off the field) unless p + max is a multiple of max.
   */
  function Wrap(p: real, max: real): (r: real)
    requires max > 0.0
    ensures -max <= p ==> 0.0 <= r < max
    ensures 0.0 <= p < max ==> r == p
    ensures -max <= p < 0.0 ==> r == p + max
    ensures max <= p < 2.0 * max ==> r == p - max
    ensures p < -max ==> -max < r <= 0.0
  {
    WrapCases(p, max);
    Rem(p + max, max)
  }

  /** Moves a point by a velocity and wraps both coordinates onto the field. */
  function Move(pl: Plane, p: Vec, v: Vec): (r: Vec)
    ensures v.x >= -pl.width && v.y >= -pl.height && OnCanvas(pl, p) ==> InBounds(pl, r)
    ensures -pl.width <= p.x + v.x && -pl.height <= p.y + v.y ==> InBounds(pl, r)
    ensures v == Origin && InBounds(pl, p) ==> r == p
  {
    Vec(Wrap(p.x + v.x, pl.width), Wrap(p.y + v.y, pl.height))
  }

  /** randBetween(a, b) = a + random() * (b - a), with the draw supplied. */
  function RandBetween(a: real, b: real, u: Unit): (r: real)
    ensures a < b ==> a <= r < b
    ensures a == b ==> r == a
  {
    a + Portion(u, b - a)
  }

  /** The share u of a length w: it lies in [0, w) when w is positive. */
  function Portion(u: Unit, w: real): (r: real)
    ensures w > 0.0 ==> 0.0 <= r < w
    ensures w == 0.0 ==> r == 0.0
  {
    if w > 0.0 then
      MulNonNegative(u, w);
      ShareBelow(u, w);
      u * w
    else
      u * w
  }

  lemma ShareBelow(u: real, w: real)
    requires 0.0 <= u < 1.0 && w > 0.0
    ensures u * w < w
  {
    MulPositive(1.0 - u, w);
    assert (1.0 - u) * w == w - u * w;
  }

  function SqDist(p: Vec, q: Vec): real {
    (p.x - q.x) * (p.x - q.x) + (p.y - q.y) * (p.y - q.y)
  }

  /**
   * Math.hypot(p - q) < reach.  The Euclidean distance is never negative, so
   * the test holds exactly when reach is positive and the squared distance is
   * below reach squared.  The plane's wrap is not taken into account:
   * collisions are not detected across the wrap seam.
   */
  function Overlaps(p: Vec, q: Vec, reach: real): (o: bool)
    ensures o ==> reach > 0.0
    ensures o <==> reach > 0.0 && SqDist(q, p) < reach * reach
  {
    assert SqDist(p, q) == SqDist(q, p);
    reach > 0.0 && SqDist(p, q) < reach * reach
  }

  /**
   * The test is exactly "the distance is below reach": for the non-negative
   * root d of the squared distance, the circles overlap iff d < reach.
   */
  lemma OverlapsIffCloser(p: Vec, q: Vec, reach: real, d: real)
    requires d >= 0.0 && d * d == SqDist(p, q)
    ensures Overlaps(p, q, reach) <==> d < reach
  {
    if 0.0 <= d < reach {
      SquareBelow(d, reach);
    } else if 0.0 < reach <= d {
      SquareAtMost(reach, d);
    }
  }

  lemma SquareBelow(x: real, y: real)
    requires 0.0 <= x < y
    ensures x * x < y * y
  {
    MulPositive(y - x, y + x);
    assert (y - x) * (y + x) == y * y - x * x;
  }

  lemma SquareAtMost(x: real, y: real)
    requires 0.0 < x <= y
    ensures x * x <= y * y
  {
    if x < y {
      SquareBelow(x, y);
    }
  }

  /** Touching circles do not collide: the comparison is strict. */
  lemma TouchingDoesNotOverlap(p: Vec, q: Vec, reach: real)
    requires SqDist(p, q) == reach * reach
    ensures !Overlaps(p, q, reach)
  {
  }

  /** The removal sentinel: nothing is ever within distance 0 (or less). */
  lemma NothingWithinZero(p: Vec, q: Vec, reach: real)
    requires reach <= 0.0
    ensures !Overlaps(p, q, reach)
  {
  }
}

=== FILE: ships.dfy ===
/**
 * The player's ship and the bullets it owns: creation, the per-frame
 * bookkeeping of `update`, firing with its cap of six bullets, the
 * hyperspace jump and the reset after a lost life.
 *
 * Headings are not stored as the source's angle in radians but as the turn
 * away from the initial heading -pi/2 (pointing up the screen); the cosine
 * and sine of the heading, needed for thrust and for a bullet's velocity,
 * are supplied by the caller as a direction vector.
 */
module Ships {
  import opened Geometry

  const ShipRadius: real := 15.0
  const BulletSpeed: real := 6.0
  const BulletLifetime: int := 60
  /** `shoot` refuses once the ship holds more than this many bullets. */
  const FullMagazine: int := 5
  const ThrustAccel: real := 0.12
  const Damping: real := 0.99
  const RespawnShield: int := 120
  const StartingLives: int := 3
  /** The 1-in-6 chance that a hyperspace jump destroys the ship. */
  const MishapOdds: real := 1.0 / 6.0

  /** A bullet: position, velocity and frames left to live. */
  datatype Bullet = Bullet(pos: Vec, vel: Vec, life: int)

  /**
   * The ship.  `bonusLives` counts the extra lives granted so far; the source
   * has no such field (see the extra-life rule in the Arcade module).
   */
  datatype Ship = Ship(
    pos: Vec,
    vel: Vec,
    turn: real,
    thrust: bool,
    bullets: seq<Bullet>,
    dead: bool,
    invulnerable: int,
    lives: int,
    score: int,
    bonusLives: int)

  /** A bullet fired from `pos` along the direction vector `dir`. */
  function NewBullet(pos: Vec, dir: Vec): (b: Bullet)
    ensures b.pos == pos && b.life == BulletLifetime
    ensures b.vel == Scale(BulletSpeed, dir)
  {
    Bullet(pos, Scale(BulletSpeed, dir), BulletLifetime)
  }

  /** One frame of a bullet: it moves, wraps and ages by one frame. */
  function BulletUpdate(pl: Plane, b: Bullet): (r: Bullet)
    ensures r.life == b.life - 1
    ensures b.vel.x >= -pl.width && b.vel.y >= -pl.height && OnCanvas(pl, b.pos) ==> InBounds(pl, r.pos)
    ensures r.vel == b.vel
  {
    Bullet(Move(pl, b.pos, b.vel), b.vel, b.life - 1)
  }

  function AgeAll(pl: Plane, bs: seq<Bullet>): (r: seq<Bullet>)
    ensures |r| == |bs|
    ensures forall i :: 0 <= i < |bs| ==> r[i] == BulletUpdate(pl, bs[i])
  {
    seq(|bs|, i requires 0 <= i < |bs| => BulletUpdate(pl, bs[i]))
  }

  /** `bullets.filter(b => b.life > 0)`. */
  function KeepLive(bs: seq<Bullet>): (r: seq<Bullet>)
    ensures |r| <= |bs|
    ensures forall b :: b in r ==> b in bs && b.life > 0
    ensures forall b :: b in bs && b.life > 0 ==> b in r
  {
    if |bs| == 0 then []
    else if bs[0].life > 0 then [bs[0]] + KeepLive(bs[1..])
    else KeepLive(bs[1..])
  }

  /** Survivors keep their relative order: filtering distributes over `+`. */
  lemma {:induction false} KeepLiveConcat(xs: seq<Bullet>, ys: seq<Bullet>)
    ensures KeepLive(xs + ys) == KeepLive(xs) + KeepLive(ys)
  {
    if |xs| == 0 {
      assert xs + ys == ys;
    } else {
      assert (xs + ys)[1..] == xs[1..] + ys;
      KeepLiveConcat(xs[1..], ys);
    }
  }

  /** A sequence of live bullets passes the filter untouched. */
  lemma {:induction false} KeepLiveAllAlive(bs: seq<Bullet>)
    requires forall i :: 0 <= i < |bs| ==> bs[i].life > 0
    ensures KeepLive(bs) == bs
  {
    if |bs| > 0 {
      KeepLiveAllAlive(bs[1..]);
      assert [bs[0]] + bs[1..] == bs;
    }
  }

  /** `new Ship()`: centred, pointing up, at rest, three lives, no score. */
  function NewShip(pl: Plane): (s: Ship)
    ensures s.pos == Centre(pl) && s.vel == Origin && s.turn == 0.0
    ensures !s.thrust && !s.dead && s.bullets == []
    ensures s.invulnerable == 0 && s.lives == StartingLives && s.score == 0
    ensures s.bonusLives == 0
  {
    Ship(Centre(pl), Origin, 0.0, false, [], false, 0, StartingLives, 0, 0)
  }

  /**
   * `Ship.update`: thrust along the heading `dir` when the thrust flag is on,
   * damp the velocity, move and wrap, age every bullet and drop the spent
   * ones, and count the invulnerability window down.
   */
  function ShipUpdate(pl: Plane, s: Ship, dir: Vec): (r: Ship)
    ensures r.vel == Scale(Damping, if s.thrust then Add(s.vel, Scale(ThrustAccel, dir)) else s.vel)
    ensures r.vel.x >= -pl.width && r.vel.y >= -pl.height && OnCanvas(pl, s.pos) ==> InBounds(pl, r.pos)
    ensures r.bullets == KeepLive(AgeAll(pl, s.bullets))
    ensures |r.bullets| <= |s.bullets|
    ensures forall b :: b in r.bullets ==> b.life > 0
    ensures forall i :: 0 <= i < |s.bullets| && s.bullets[i].life > 1 ==> BulletUpdate(pl, s.bullets[i]) in r.bullets
    ensures forall b :: b in r.bullets ==> exists i :: 0 <= i < |s.bullets| && b == BulletUpdate(pl, s.bullets[i])
    ensures s.invulnerable > 0 ==> r.invulnerable == s.invulnerable - 1
    ensures s.invulnerable <= 0 ==> r.invulnerable == s.invulnerable
    ensures r == s.(pos := r.pos, vel := r.vel, bullets := r.bullets, invulnerable := r.invulnerable)
  {
    var v := if s.thrust then Add(s.vel, Scale(ThrustAccel, dir)) else s.vel;
    var v' := Scale(Damping, v);
    var aged := AgeAll(pl, s.bullets);
    var kept := KeepLive(aged);
    assert forall b :: b in kept ==> exists i :: 0 <= i < |s.bullets| && b == BulletUpdate(pl, s.bullets[i]) by {
      forall b | b in kept
        ensures exists i :: 0 <= i < |s.bullets| && b == BulletUpdate(pl, s.bullets[i])
      {
        var i :| 0 <= i < |aged| && aged[i] == b;
      }
    }
    s.(pos := Move(pl, s.pos, v'),
       vel := v',
       bullets := kept,
       invulnerable := if s.invulnerable > 0 then s.invulnerable - 1 else s.invulnerable)
  }

  /**
   * Bullets with more than one frame left all survive an update, aged by one
   * frame and in the order the ship fired them.
   */
  lemma ShipUpdateKeepsYoungBullets(pl: Plane, s: Ship, dir: Vec)
    requires forall i :: 0 <= i < |s.bullets| ==> s.bullets[i].life > 1
    ensures ShipUpdate(pl, s, dir).bullets == AgeAll(pl, s.bullets)
  {
    KeepLiveAllAlive(AgeAll(pl, s.bullets));
  }

  /**
   * `Ship.shoot`: with more than five bullets held nothing happens; otherwise
   * exactly one bullet, with a full lifetime, is appended at the ship.
   */
  function Shoot(s: Ship, dir: Vec): (r: Ship)
    ensures |s.bullets| > FullMagazine ==> r == s
    ensures |s.bullets| <= FullMagazine ==>
      && r == s.(bullets := r.bullets)
      && |r.bullets| == |s.bullets| + 1
      && r.bullets[..|s.bullets|] == s.bullets
      && r.bullets[|s.bullets|] == NewBullet(s.pos, dir)
      && r.bullets[|s.bullets|].pos == s.pos
      && r.bullets[|s.bullets|].life == BulletLifetime
  {
    if |s.bullets| > FullMagazine then s
    else s.(bullets := s.bullets + [NewBullet(s.pos, dir)])
  }

  /** Fires once for each direction in `dirs`, in order. */
  function ShootAll(s: Ship, dirs: seq<Vec>): Ship
    decreases |dirs|
  {
    if |dirs| == 0 then s else ShootAll(Shoot(s, dirs[0]), dirs[1..])
  }

  /** However often the player fires, a ship holding at most six bullets never holds more. */
  lemma {:induction false} ShootingRespectsCap(s: Ship, dirs: seq<Vec>)
    requires |s.bullets| <= FullMagazine + 1
    ensures |ShootAll(s, dirs).bullets| <= FullMagazine + 1
    decreases |dirs|
  {
    if |dirs| > 0 {
      ShootingRespectsCap(Shoot(s, dirs[0]), dirs[1..]);
    }
  }

  /** Firing into a full magazine does nothing, however often it is tried. */
  lemma {:induction false} ShootingFullIsNoOp(s: Ship, dirs: seq<Vec>)
    requires |s.bullets| > FullMagazine
    ensures ShootAll(s, dirs) == s
    decreases |dirs|
  {
    if |dirs| > 0 {
      ShootingFullIsNoOp(Shoot(s, dirs[0]), dirs[1..]);
    }
  }

  /**
   * `Ship.hyperspace` as written: the ship jumps to a uniformly drawn point
   * and, with odds 1/6, is flagged dead.  Nothing else happens: no life is
   * taken and no life loss is scheduled.
   */
  function HyperspaceAsWritten(pl: Plane, s: Ship, ux: Unit, uy: Unit, uMishap: Unit): (r: Ship)
    ensures InBounds(pl, r.pos)
    ensures r.dead <==> s.dead || uMishap < MishapOdds
    ensures r == s.(pos := r.pos, dead := r.dead)
  {
    var dead := if uMishap < MishapOdds then true else s.dead;
    s.(pos := Vec(RandBetween(0.0, pl.width, ux), RandBetween(0.0, pl.height, uy)), dead := dead)
  }

  /** The outcome of a jump: the ship, and whether a life loss must follow. */
  datatype Jump = Jump(ship: Ship, loseLife: bool)

  /**
   * The hyperspace jump with the mishap routed into the life-loss path, as a
   * collision is: a live ship that is destroyed by the jump asks for one
   * life loss; an already dead ship (whose loss is pending) asks for none.
   */
  function Hyperspace(pl: Plane, s: Ship, ux: Unit, uy: Unit, uMishap: Unit): (j: Jump)
    ensures j.ship == HyperspaceAsWritten(pl, s, ux, uy, uMishap)
    ensures j.loseLife <==> !s.dead && j.ship.dead
    ensures j.loseLife <==> !s.dead && uMishap < MishapOdds
  {
    var r := HyperspaceAsWritten(pl, s, ux, uy, uMishap);
    Jump(r, !s.dead && r.dead)
  }

  /**
   * `Ship.reset`: back to the centre, at rest, pointing up, alive and shielded
   * for 120 frames.  Lives, score, thrust flag and bullets are kept.
   */
  function ShipReset(pl: Plane, s: Ship): (r: Ship)
    ensures r.pos == Centre(pl) && r.vel == Origin && r.turn == 0.0
    ensures r.invulnerable == RespawnShield && !r.dead
    ensures r == s.(pos := r.pos, vel := r.vel, turn := r.turn, invulnerable := r.invulnerable, dead := false)
  {
    s.(pos := Centre(pl), vel := Origin, turn := 0.0, invulnerable := RespawnShield, dead := false)
  }
}
